=== FILE: README.md ===
# Boxed breathing: a Dafny model of the timer, the phase table and the settings store

The web app guides box breathing: inhale, hold, exhale and hold with empty
lungs, each for the same number of seconds, repeated for a chosen number of
cycles. Three pure pieces carry its behaviour, and this project models each
as immutable data and pure functions:

- `breathing.dfy` (module `Breathing`): the four-entry phase table, the
  `findIndex`/`find` lookups over it, the cyclic successor and the progress
  percentage formula.
- `timer.dfy` (module `BreathingTimer`): the timer hook as a state machine
  over `idle | running | paused | completed`. Every handler (`start`, `pause`,
  `resume`, `stop`, `reset`, the internal tick and the phase change) is one
  atomic transition `Snapshot -> Step(next, events)`, where the events are the
  `onPhaseChange(p)` and `onComplete()` callbacks. Time is integer tenths of a
  second and one tick removes one tenth. The repeating interval is the boolean
  `ticking`. `duration` and `cycles` are fixed for a session.
- `settings.dfy` (module `BreathingSettings`): clamped updates, reset to the
  defaults, the mount-time load from a key/value string store and the save
  back to it.
- `decimal.dfy` (module `Decimal`): the two JavaScript conversions the store
  relies on. `parseInt(s, 10)` skips leading ECMAScript white space, reads an
  optional sign and the longest run of decimal digits, and ignores the rest;
  with no digits it gives NaN (`None` here). `toString()` on an integer of
  magnitude at most 2⁵³ gives an optional minus sign and the digits with no
  leading zero.
- `wrappers.dfy` (module `Wrappers`): the `Option` type.

The central results:

- `BreathingTimer.SessionLength`: from `start`, with duration d and c cycles,
  the timer runs for exactly 40·d·c ticks. It is `running` for every shorter
  run and `completed` after exactly that many. `Complete` is announced exactly
  once, and later ticks change nothing. 40·d·c ticks is ten ticks per second of
  the total time the completion screen shows.
- `BreathingSettings.SaveLoadRoundTrip`: in-range settings that are saved and
  then loaded come back unchanged. It rests on
  `Decimal.ParseIntToString`, which says `parseInt(n.toString() + rest)` gives
  `n` whenever `rest` does not start with a digit. This holds in JavaScript for
  integers below 10²¹ in magnitude that a double holds exactly, which includes
  every in-range setting.

Two behaviours of the timer code that the model keeps:

- When the last cycle ends, `moveToNextPhase` fires the phase-change
  notification for `inhale` as well as the completion notification
  (`apps/web/src/hooks/use-breathing-timer.ts`, lines 47-61). The final wrap
  therefore emits both `PhaseChange(Inhale)` and `Complete`.
- `phaseTimeRemaining` never reaches 0. A tick that would leave 0 or less
  moves to the next phase and sets the full duration instead (lines 76-78),
  so the invariant is 0 < remaining ≤ duration.

## Model

| member | source | states |
|---|---|---|
| `Breathing.FindIndex` | apps/web/src/lib/breathing.ts:47-49 | `findIndex` gives -1 exactly when no entry holds the phase; otherwise it gives the first position holding it |
| `Breathing.Find` | apps/web/src/lib/breathing.ts:57-59 | `find` gives nothing exactly when no entry holds the phase (exactly when `findIndex` gives -1); otherwise it gives the first entry holding it, the one at `findIndex` |
| `Breathing.GetPhaseIndex` | apps/web/src/lib/breathing.ts:47-49 | the index of every phase is in 0..3, is never -1, points at that phase's table entry, and follows the table order: inhale 0, hold 1, exhale 2, hold-empty 3 |
| `Breathing.GetNextPhase` | apps/web/src/lib/breathing.ts:51-55 | the next phase is never the current one, and its index is the current index plus one, modulo 4 |
| `Breathing.NextPhaseOrder` | apps/web/src/lib/breathing.ts:15-55 | the successor of the table agrees with the box-breathing order written out independently: inhale → hold → exhale → hold-empty → inhale |
| `Breathing.NextPhaseIndexWithinCycle` | apps/web/src/lib/breathing.ts:51-55 | before hold-empty, the successor's index is the current index plus one, with no wrap |
| `Breathing.NextPhaseFourCycle` | apps/web/src/lib/breathing.ts:51-55 | four successor steps return to the starting phase; two or three steps do not |
| `Breathing.GetPhaseInfo` | apps/web/src/lib/breathing.ts:57-59 | the info found always belongs to the requested phase, and it is that phase's table entry, so the fallback to the first entry is never used |
| `Breathing.CalculateProgress` | apps/web/src/lib/breathing.ts:61-70 | no finite result exactly when the total is 0; for a positive total and 0 ≤ remaining ≤ total the result lies in [25·index, 25·(index+1)], and so in [0, 100]; it is below 25·(index+1) while time is left, and it equals 25·index at a full phase |
| `Breathing.ProgressMonotone` | apps/web/src/lib/breathing.ts:61-70 | within one phase, less time remaining never gives less progress |
| `Breathing.DefaultConfigInRange` | apps/web/src/lib/breathing.ts:42-45 | the defaults are duration 4 and cycles 4, inside the ranges [1,60] and [1,20] the store clamps to |
| `BreathingTimer.Initial` | apps/web/src/hooks/use-breathing-timer.ts:27-30 | the idle, not-ticking state the hook mounts in when it is first rendered with the session's duration (and the state `stop` and `reset` return); it satisfies the session invariant |
| `BreathingTimer.Start` | apps/web/src/hooks/use-breathing-timer.ts:85-97 | a no-op while running; from idle, paused or completed it gives running and ticking, inhale, a full phase and cycle 1, and emits exactly `PhaseChange(inhale)`; it keeps the invariant |
| `BreathingTimer.Pause` | apps/web/src/hooks/use-breathing-timer.ts:99-104 | acts only from running: paused, ticking cancelled, phase, remaining time and cycle unchanged; a no-op in every other state; emits nothing |
| `BreathingTimer.Resume` | apps/web/src/hooks/use-breathing-timer.ts:106-112 | acts only from paused: running and ticking again, phase, remaining time and cycle unchanged; a no-op in every other state; emits nothing |
| `BreathingTimer.PauseResumeIdentity` | apps/web/src/hooks/use-breathing-timer.ts:99-112 | pausing a running timer and then resuming it gives back the same snapshot, so no time is lost or gained |
| `BreathingTimer.Stop` | apps/web/src/hooks/use-breathing-timer.ts:114-120 | from every state: back to the mount-time state (idle, inhale, a full phase, cycle 1) with ticking cancelled |
| `BreathingTimer.Reset` | apps/web/src/hooks/use-breathing-timer.ts:122-128 | from every state: back to the mount-time state with ticking cancelled |
| `BreathingTimer.StopIsReset` | apps/web/src/hooks/use-breathing-timer.ts:114-128 | stop and reset are the same transition from every state |
| `BreathingTimer.MoveToNextPhase` | apps/web/src/hooks/use-breathing-timer.ts:42-65 | goes to the successor phase with a full phase and announces it; the cycle changes only when hold-empty wraps to inhale, and then by one; past the last cycle it completes, stops ticking, keeps the cycle at its maximum and emits `Complete` together with the phase change; the events are exactly one phase change to the successor, plus `Complete` on the final wrap (two events in all) |
| `BreathingTimer.Tick` | apps/web/src/hooks/use-breathing-timer.ts:67-83 | a no-op unless ticking; otherwise it takes one tenth off, or, when nothing would be left, moves to the next phase with a full phase, emitting exactly that phase change, plus `Complete` on the final wrap; only the hold-empty → inhale wrap changes the cycle; `Complete` is emitted exactly on the final wrap; it keeps 0 < remaining ≤ duration and 1 ≤ cycle ≤ cycles |
| `BreathingTimer.Ticks` | apps/web/src/hooks/use-breathing-timer.ts:67-83 | any number of ticks keeps the session invariant, and ticks do nothing when the timer is not ticking |
| `BreathingTimer.InvariantHolds` | apps/web/src/hooks/use-breathing-timer.ts:27-128 | the initial state satisfies the invariant, and every handler and the tick preserve it |
| `BreathingTimer.CompletedIsTerminal` | apps/web/src/hooks/use-breathing-timer.ts:47-63 | once completed, ticks, pause and resume change nothing; only start, stop or reset leave completion |
| `BreathingTimer.TickCountsDown` | apps/web/src/hooks/use-breathing-timer.ts:42-83 | each tick of a running session lowers the ticks left to completion by one; the tick that completes is the one with a single tick left |
| `BreathingTimer.TickWithinPhase` | apps/web/src/hooks/use-breathing-timer.ts:74-81 | a tick with more than a tenth left keeps running and brings completion one tick closer |
| `BreathingTimer.TickToNextPhase` | apps/web/src/hooks/use-breathing-timer.ts:42-65 | a phase change inside a cycle keeps running and brings completion one tick closer |
| `BreathingTimer.TickToNextCycle` | apps/web/src/hooks/use-breathing-timer.ts:47-58 | wrapping into a further cycle keeps running and brings completion one tick closer |
| `BreathingTimer.TickCompletes` | apps/web/src/hooks/use-breathing-timer.ts:47-56 | the wrap out of the last cycle completes and announces completion once |
| `BreathingTimer.RunsToCompletion` | apps/web/src/hooks/use-breathing-timer.ts:42-83 | a running session keeps running and announces nothing for fewer ticks than it has left, and it completes with exactly one `Complete` after exactly that many |
| `BreathingTimer.RunsBeforeCompletion` | apps/web/src/hooks/use-breathing-timer.ts:67-83 | for fewer ticks than a running session has left, it is still running and has announced no completion |
| `BreathingTimer.CompletesOnLastTick` | apps/web/src/hooks/use-breathing-timer.ts:42-83 | after exactly the ticks a running session has left, it is completed and has announced completion exactly once |
| `BreathingTimer.TotalTime` | apps/web/src/components/breathing/completion-screen.tsx:22 | the total session time the completion screen shows: four phases of `duration` seconds in each of the `cycles` cycles; `BreathingTimer.StartTicksLeft` and `BreathingTimer.SessionLength` prove the timer runs ten ticks per second of it |
| `BreathingTimer.StartTicksLeft` | apps/web/src/hooks/use-breathing-timer.ts:85-97 | a fresh start has 40·duration·cycles ticks ahead of it, which is ten per second of the completion screen's total time |
| `BreathingTimer.SessionLength` | apps/web/src/components/breathing/completion-screen.tsx:22 | from start, exactly 40·duration·cycles ticks (10 × the total time on the completion screen) reach completion; the timer is running before that, `Complete` is emitted once, and later ticks do nothing |
| `BreathingTimer.Progress` | apps/web/src/hooks/use-breathing-timer.ts:137-140 | the hook's inline progress agrees with `calculateProgress` of the phase table, and in any valid state it lies in [25·index, 25·(index+1)) |
| `BreathingTimer.View` | apps/web/src/hooks/use-breathing-timer.ts:142-154 | the returned object reports the snapshot's state, phase and cycle, its remaining time in seconds (tenths / 10), which lies in (0, duration], the session's cycle total, and the derived progress |
| `BreathingSettings.Clamp` | apps/web/src/hooks/use-breathing-settings.ts:69 | `max(lo, min(hi, x))` lies in [lo, hi], leaves in-range values alone, and sends values below or above to lo or hi |
| `BreathingSettings.UpdateDuration` | apps/web/src/hooks/use-breathing-settings.ts:68-71 | the new duration lies in [1,60], an in-range value is kept, 0 gives 1 and 100 gives 60; cycles are unchanged |
| `BreathingSettings.UpdateCycles` | apps/web/src/hooks/use-breathing-settings.ts:73-76 | the new cycle count lies in [1,20], an in-range value is kept, out-of-range values go to the nearer bound; duration is unchanged |
| `BreathingSettings.UpdateIdempotent` | apps/web/src/hooks/use-breathing-settings.ts:68-76 | updating twice with the same value equals updating once, for both fields |
| `BreathingSettings.UpdatePreservesRange` | apps/web/src/hooks/use-breathing-settings.ts:68-81 | updates and reset keep both settings inside their ranges |
| `BreathingSettings.Reset` | apps/web/src/hooks/use-breathing-settings.ts:78-81 | from any prior settings, the result is duration 4 and cycles 4, which is in range |
| `BreathingSettings.LoadValue` | apps/web/src/hooks/use-breathing-settings.ts:27-39 | a missing or empty string, a string that does not parse, or a parsed number out of range keeps the current value; otherwise the parsed number is adopted |
| `BreathingSettings.Load` | apps/web/src/hooks/use-breathing-settings.ts:19-45 | the loaded settings are always in range, and each field comes from its own key alone, starting from the defaults |
| `BreathingSettings.LoadIndependent` | apps/web/src/hooks/use-breathing-settings.ts:27-39 | stores that agree on one key load the same value for that field, whatever the other key holds |
| `BreathingSettings.LoadEmpty` | apps/web/src/hooks/use-breathing-settings.ts:15-16 | with nothing stored, the settings stay at the defaults |
| `BreathingSettings.Save` | apps/web/src/hooks/use-breathing-settings.ts:47-66 | both keys hold the decimal strings of the current values, and every other key is unchanged |
| `BreathingSettings.LoadValueOfSaved` | apps/web/src/hooks/use-breathing-settings.ts:27-39 | the saved string of an in-range value is accepted on load and gives that value back |
| `BreathingSettings.SaveLoadRoundTrip` | apps/web/src/hooks/use-breathing-settings.ts:23-66 | saving in-range settings and loading them gives the same settings back |
| `Decimal.TrimStart` | apps/web/src/hooks/use-breathing-settings.ts:28 | `parseInt`'s first step drops exactly the leading white space: the rest is a suffix that does not start with white space |
| `Decimal.LeadingDigits` | apps/web/src/hooks/use-breathing-settings.ts:28 | the digit run `parseInt` reads is the longest all-digit prefix |
| `Decimal.ParseDigits` | apps/web/src/hooks/use-breathing-settings.ts:28 | a digit run gives its value, and there is no number exactly when the text does not start with a digit |
| `Decimal.ParseSigned` | apps/web/src/hooks/use-breathing-settings.ts:28 | `+` reads the digit run after it; `-` reads it and negates it; any other non-digit first character gives NaN; NaN exactly when the text does not open with a digit, possibly after one sign; an all-digit text gives its value |
| `Decimal.ParseInt` | apps/web/src/hooks/use-breathing-settings.ts:28-29 | NaN exactly when, after the leading white space, the text does not open with a digit, possibly after one sign; a non-empty all-digit string gives its decimal value, and a string with no digit at all gives NaN |
| `Decimal.NatToString` | apps/web/src/hooks/use-breathing-settings.ts:52 | the digits of a natural number: non-empty, all digits, no leading zero |
| `Decimal.IntToString` | apps/web/src/hooks/use-breathing-settings.ts:62 | the decimal text of an integer is never empty, starts with `-` exactly for a negative number, is otherwise digits, and has no leading zero |
| `Decimal.DigitsValueOfNatToString` | apps/web/src/hooks/use-breathing-settings.ts:52 | the digits written for n denote n |
| `Decimal.LeadingDigitsOfAppend` | apps/web/src/hooks/use-breathing-settings.ts:28 | the digit run of `a + rest` is exactly `a` when `rest` does not continue it |
| `Decimal.ParseDigitsOfAppend` | apps/web/src/hooks/use-breathing-settings.ts:28 | any non-empty digit run, leading zeros included, followed by text that does not start with a digit, is read as the run's value (so `"05px"` reads as 5) |
| `Decimal.ParseSignedOfPrefix` | apps/web/src/hooks/use-breathing-settings.ts:28 | after an optional `+` or `-`, a digit run followed by non-digit text is read as its value, negated after `-` |
| `Decimal.ParseIntOfDecimalPrefix` | apps/web/src/hooks/use-breathing-settings.ts:28-29 | `parseInt` of leading white space, an optional sign, a digit run and text that does not continue the run gives the run's signed value |
| `Decimal.ParseDigitsOfNatToString` | apps/web/src/hooks/use-breathing-settings.ts:28 | reading back the digits written for n gives n, whatever non-digit text follows |
| `Decimal.ParseSignedOfIntToString` | apps/web/src/hooks/use-breathing-settings.ts:28 | reading back the signed text written for n gives n, whatever non-digit text follows |
| `Decimal.ParseIntToString` | apps/web/src/hooks/use-breathing-settings.ts:28-35 | `parseInt(n.toString() + rest)` gives n for every integer n in the model's unbounded integers when `rest` does not start with a digit (the JavaScript bounds are under "Left out") |
| `Decimal.TrimStartSkips` | apps/web/src/hooks/use-breathing-settings.ts:28 | a white space prefix is skipped entirely |
| `Decimal.ParseIntSkipsWhitespace` | apps/web/src/hooks/use-breathing-settings.ts:28 | leading white space does not change what `parseInt` reads |

## Left out

- Sound, vibration and the audio context singleton (`apps/web/src/lib/audio.ts`). These are side effects of the notification callbacks and are not part of the state machine.
- All view components (the phase display, the settings panel, the completion screen and the route). They are layout and display-only float math. The settings panel's own button limits (1–20 seconds, 1–10 cycles) are display constraints. Only the store's clamp is modelled.
- Wall-clock plumbing: `Date.now`, the 100 ms gate in the tick, and `setInterval`/`clearInterval`. A tick is an abstract event that has already passed the gate. The interval handle is the `ticking` flag.
- BreathingTimer.Tick: works in integer tenths, not with the source's repeated floating-point `- 0.1`. Float rounding drift, which can cost an extra tick per phase, is idealised away.
- `localStorage` I/O errors and their try/catch logging. The store is a map from key to string, and a missing key is `getItem`'s null.
- React semantics: batched updates, the order in which nested state updaters run, stale closures and unmount cleanup. At completion, the contracts state which notifications are emitted, not their order.
- Changing the settings after the hook has mounted, during a session or while idle, including the mount-time load of stored settings. `useState(duration)` keeps the duration of the first render, which is the default 4 because the stored values load in a later effect. Until the first `start`, `stop` or `reset`, the source's idle state therefore shows the first-render duration, and with a stored duration of 1 to 3 it breaks 0 < remaining ≤ duration. `BreathingTimer.Initial` is the mount state for a hook first rendered with the session's duration. Start, stop and reset build their state from the current duration, so the invariant holds from the first start on (the contracts of `BreathingTimer.Start` and `BreathingTimer.Stop`).
- BreathingSettings.UpdateDuration: takes integers only, so `Math.max`/`Math.min` on fractional numbers or NaN is not modelled. The app only passes whole numbers. BreathingSettings.UpdateCycles has the same restriction.
- Decimal.ParseInt: uses unbounded integers, so the precision loss of very long digit strings in a JavaScript number is not modelled. It cannot change the outcome of the [1,60] and [1,20] range checks. The sign of negative zero is not modelled either; it fails the range check like 0.
- The `typeof window === "undefined"` guard for server-side rendering and the `isLoaded` flag that delays the first save until the load has run. The model saves the current settings as one write of both keys.
- Breathing.CalculateProgress: computes in exact reals, not IEEE doubles. In doubles, a positive remaining below about total·10⁻¹⁶ already rounds the phase fraction to 1. For example, `calculateProgress("hold-empty", 1e-16, 4)` is 100, and the float drift of the tick can leave such a remaining. So the strict bound "below 25·(index+1) while time is left" holds only for the exact formula.
- Decimal.IntToString: models `Number.prototype.toString` only for integers of magnitude at most 2⁵³. Above that, JavaScript writes the shortest digit string that reads back as the same double, padded with zeros: `(2**60).toString()` is `"1152921504606847000"`, not the exact `"1152921504606846976"`. Separately, from 10²¹ on it writes exponent form (`"1e+21"`). The store only writes values in [1,60] and [1,20].
- Decimal.ParseIntToString: the round trip is stated for unbounded integers. In JavaScript it fails from 10²¹ on, where `parseInt("1e+21")` is 1. It holds for every value the store saves.

=== FILE: breathing.dfy ===
/**
 * The phase table of box breathing and the pure helpers over it:
 * index lookup, cyclic successor, info lookup and the progress formula.
 */
module Breathing {
  import opened Wrappers

  /** The four quarters of one breathing cycle. */
  datatype Phase = Inhale | Hold | Exhale | HoldEmpty

  /** The edge of the square a phase is drawn along. */
  datatype Side = Top | Right | Bottom | Left

  datatype PhaseInfo = PhaseInfo(phase: Phase, caption: string, instruction: string, side: Side)

  /** Seconds per phase and number of cycles of one session. */
  datatype Config = Config(duration: int, cycles: int)

  /** The phase table, in the order the exercise walks through it. */
  const Phases: seq<PhaseInfo> := [
    PhaseInfo(Inhale, "INHALE", "Breathe in through your nose", Top),
    PhaseInfo(Hold, "HOLD", "Hold your breath", Right),
    PhaseInfo(Exhale, "EXHALE", "Breathe out through your mouth", Bottom),
    PhaseInfo(HoldEmpty, "HOLD", "Hold with empty lungs", Left)
  ]

  const DefaultConfig: Config := Config(4, 4)

  /** `findIndex` on a phase table: the first position holding `p`, or -1. */
  function FindIndex(infos: seq<PhaseInfo>, p: Phase): (r: int)
    ensures -1 <= r < |infos|
    ensures r == -1 <==> forall i :: 0 <= i < |infos| ==> infos[i].phase != p
    ensures 0 <= r ==> infos[r].phase == p && forall i :: 0 <= i < r ==> infos[i].phase != p
  {
    if |infos| == 0 then -1
    else if infos[0].phase == p then 0
    else
      var k := FindIndex(infos[1..], p);
      if k == -1 then -1 else k + 1
  }

  /** `find` on a phase table: the first entry holding `p`, if any. */
  function Find(infos: seq<PhaseInfo>, p: Phase): (r: Option<PhaseInfo>)
    ensures r.None? <==> forall i :: 0 <= i < |infos| ==> infos[i].phase != p
    ensures r.Some? ==> r.value.phase == p && r.value in infos
    ensures r.Some? <==> FindIndex(infos, p) >= 0
    ensures r.Some? ==> r.value == infos[FindIndex(infos, p)]
  {
    if |infos| == 0 then None
    else if infos[0].phase == p then Some(infos[0])
    else Find(infos[1..], p)
  }

  /** The position of `p` in the phase table; never the "not found" -1. */
  function GetPhaseIndex(p: Phase): (r: int)
    ensures 0 <= r < |Phases|
    ensures Phases[r].phase == p
    ensures r == Position(p)
  {
    var r := FindIndex(Phases, p);
    assert Phases[Position(p)].phase == p;
    assert Phases[0].phase == Inhale && Phases[1].phase == Hold;
    assert Phases[2].phase == Exhale && Phases[3].phase == HoldEmpty;
    r
  }

  /** Where each phase sits in the table, written out independently of the lookup. */
  function Position(p: Phase): nat {
    match p
    case Inhale => 0
    case Hold => 1
    case Exhale => 2
    case HoldEmpty => 3
  }

  /** The phase after `p`, wrapping from the last table entry to the first. */
  function GetNextPhase(p: Phase): (r: Phase)
    ensures r != p
    ensures GetPhaseIndex(r) == (GetPhaseIndex(p) + 1) % |Phases|
  {
    var currentIndex := GetPhaseIndex(p);
    var nextIndex := (currentIndex + 1) % |Phases|;
    Phases[nextIndex].phase
  }

  /** The table entry of `p`; the fallback to the first entry is never taken. */
  function GetPhaseInfo(p: Phase): (r: PhaseInfo)
    ensures r.phase == p
    ensures r == Phases[GetPhaseIndex(p)]
  {
    Find(Phases, p).GetOr(Phases[0])
  }

  /**
   * Percentage through the whole cycle: a quarter per completed phase plus a
   * quarter of the fraction of the current phase already elapsed.  A zero
   * `total` divides by zero in the source and yields no finite number.
   */
  function CalculateProgress(p: Phase, remaining: real, total: real): (r: Option<real>)
    ensures r.None? <==> total == 0.0
    ensures total > 0.0 && remaining == total ==> r == Some(25.0 * GetPhaseIndex(p) as real)
    ensures total > 0.0 && 0.0 <= remaining <= total ==>
              r.Some? && 25.0 * GetPhaseIndex(p) as real <= r.value <= 25.0 * (GetPhaseIndex(p) + 1) as real
    ensures total > 0.0 && 0.0 < remaining <= total ==>
              r.Some? && r.value < 25.0 * (GetPhaseIndex(p) + 1) as real
  {
    if total == 0.0 then None
    else
      var phaseProgress := ((total - remaining) / total) * 100.0;
      var phaseIndex := GetPhaseIndex(p);
      FractionBounds(remaining, total);
      Some((phaseIndex as real) * 25.0 + phaseProgress / 4.0)
  }

  /** The elapsed fraction of a phase lies in [0, 1], and below 1 while time is left. */
  lemma FractionBounds(remaining: real, total: real)
    requires total != 0.0
    ensures total > 0.0 && 0.0 <= remaining <= total ==> 0.0 <= (total - remaining) / total <= 1.0
    ensures total > 0.0 && 0.0 < remaining <= total ==> (total - remaining) / total < 1.0
  {
    if total > 0.0 && 0.0 <= remaining <= total {
      var f := (total - remaining) / total;
      assert f * total == total - remaining;
    }
  }

  /** The box-breathing order, written out independently of the table. */
  function Successor(p: Phase): Phase {
    match p
    case Inhale => Hold
    case Hold => Exhale
    case Exhale => HoldEmpty
    case HoldEmpty => Inhale
  }

  lemma PositionInjective(a: Phase, b: Phase)
    requires Position(a) == Position(b)
    ensures a == b
  {
  }

  /** `getNextPhase` walks the table in order: inhale, hold, exhale, hold-empty, inhale. */
  lemma NextPhaseOrder(p: Phase)
    ensures GetNextPhase(p) == Successor(p)
  {
    SuccessorPosition(p);
    PositionInjective(GetNextPhase(p), Successor(p));
  }

  lemma SuccessorPosition(p: Phase)
    ensures Position(Successor(p)) == (Position(p) + 1) % 4
  {
    match p
    case Inhale =>
    case Hold =>
    case Exhale =>
    case HoldEmpty =>
  }

  /** Before the last table entry, the successor sits at the next index. */
  lemma NextPhaseIndexWithinCycle(p: Phase)
    requires p != HoldEmpty
    ensures GetPhaseIndex(GetNextPhase(p)) == GetPhaseIndex(p) + 1
  {
    NextPhaseOrder(p);
    match p
    case Inhale =>
    case Hold =>
    case Exhale =>
  }

  /** Four successive phase changes bring any phase back to itself, and no fewer do. */
  lemma NextPhaseFourCycle(p: Phase)
    ensures GetNextPhase(GetNextPhase(GetNextPhase(GetNextPhase(p)))) == p
    ensures GetNextPhase(GetNextPhase(p)) != p
    ensures GetNextPhase(GetNextPhase(GetNextPhase(p))) != p
  {
    var p1 := GetNextPhase(p);
    var p2 := GetNextPhase(p1);
    var p3 := GetNextPhase(p2);
    NextPhaseOrder(p);
    NextPhaseOrder(p1);
    NextPhaseOrder(p2);
    NextPhaseOrder(p3);
  }

  /** Less time left in a phase never means less progress. */
  lemma ProgressMonotone(p: Phase, r1: real, r2: real, total: real)
    requires total > 0.0
    requires r1 <= r2
    ensures CalculateProgress(p, r1, total).Some? && CalculateProgress(p, r2, total).Some?
    ensures CalculateProgress(p, r2, total).value <= CalculateProgress(p, r1, total).value
  {
    var f1 := (total - r1) / total;
    var f2 := (total - r2) / total;
    assert f1 * total == total - r1;
    assert f2 * total == total - r2;
    NonNegativeFactor(f1 - f2, total);
    var i := GetPhaseIndex(p) as real;
    assert CalculateProgress(p, r1, total).value == i * 25.0 + (f1 * 100.0) / 4.0;
    assert CalculateProgress(p, r2, total).value == i * 25.0 + (f2 * 100.0) / 4.0;
  }

  lemma NonNegativeFactor(x: real, t: real)
    requires t > 0.0 && x * t >= 0.0
    ensures x >= 0.0
  {
  }

  /** The default session lies inside the ranges the settings store clamps to. */
  lemma DefaultConfigInRange()
    ensures DefaultConfig.duration == 4 && DefaultConfig.cycles == 4
    ensures 1 <= DefaultConfig.duration <= 60 && 1 <= DefaultConfig.cycles <= 20
  {
  }
}

=== FILE: decimal.dfy ===
/**
 * The two string conversions the settings store relies on: JavaScript's
 * `parseInt(s, 10)` (skip leading white space, take an optional sign and the
 * longest run of decimal digits, ignore the rest; no digits means NaN) and
 * `Number.prototype.toString()` on an integer of magnitude at most 2^53
 * (optional minus sign, then the decimal digits with no leading zero).
 */
module Decimal {
  import opened Wrappers

  predicate IsDigit(c: char) {
    '0' <= c <= '9'
  }

  /** The characters ECMAScript counts as white space or line terminators. */
  predicate IsJsWhitespace(c: char) {
    c == '\t' || c == '\n' || c == '\U{000B}' || c == '\U{000C}' || c == '\r' || c == ' '
    || c == '\U{00A0}' || c == '\U{1680}' || ('\U{2000}' <= c <= '\U{200A}')
    || c == '\U{2028}' || c == '\U{2029}' || c == '\U{202F}' || c == '\U{205F}'
    || c == '\U{3000}' || c == '\U{FEFF}'
  }

  function DigitValue(c: char): (d: nat)
    requires IsDigit(c)
    ensures d < 10
  {
    (c as int) - ('0' as int)
  }

  function DigitChar(d: nat): (c: char)
    requires d < 10
    ensures IsDigit(c) && DigitValue(c) == d
  {
    (('0' as int) + d) as char
  }

  predicate AllDigits(s: string) {
    forall i :: 0 <= i < |s| ==> IsDigit(s[i])
  }

  /** `s` with its leading white space removed. */
  function TrimStart(s: string): (r: string)
    ensures |r| <= |s| && r == s[|s| - |r|..]
    ensures forall i :: 0 <= i < |s| - |r| ==> IsJsWhitespace(s[i])
    ensures r == [] || !IsJsWhitespace(r[0])
  {
    if |s| > 0 && IsJsWhitespace(s[0]) then
      var r := TrimStart(s[1..]);
      assert s[1..][|s| - 1 - |r|..] == s[|s| - |r|..];
      assert forall i :: 1 <= i < |s| - |r| ==> s[i] == s[1..][i - 1];
      r
    else s
  }

  /** The length of the longest prefix of `s` made of decimal digits. */
  function LeadingDigits(s: string): (n: nat)
    ensures n <= |s|
    ensures AllDigits(s[..n])
    ensures n == |s| || !IsDigit(s[n])
  {
    if |s| > 0 && IsDigit(s[0]) then 1 + LeadingDigits(s[1..]) else 0
  }

  /** The number a run of decimal digits denotes, most significant first. */
  function DigitsValue(ds: string): nat
    requires AllDigits(ds)
  {
    if |ds| == 0 then 0
    else DigitsValue(ds[..|ds| - 1]) * 10 + DigitValue(ds[|ds| - 1])
  }

  predicate IsSign(c: char) {
    c == '+' || c == '-'
  }

  /** `t` opens with a digit, possibly after one sign character. */
  predicate StartsNumber(t: string) {
    (|t| > 0 && IsDigit(t[0])) || (|t| > 1 && IsSign(t[0]) && IsDigit(t[1]))
  }

  /** `parseInt(s, 10)`, with NaN as `None`. */
  function ParseInt(s: string): (r: Option<int>)
    ensures AllDigits(s) && |s| > 0 ==> r == Some(DigitsValue(s))
    ensures (forall i :: 0 <= i < |s| ==> !IsDigit(s[i])) ==> r.None?
    ensures r.None? <==> !StartsNumber(TrimStart(s))
  {
    var t := TrimStart(s);
    assert |s| > 0 && IsDigit(s[0]) ==> t == s;
    ParseSigned(t)
  }

  /** An optional sign followed by a digit run; `t` starts after the white space. */
  function ParseSigned(t: string): (r: Option<int>)
    ensures AllDigits(t) && |t| > 0 ==> r == Some(DigitsValue(t))
    ensures (forall i :: 0 <= i < |t| ==> !IsDigit(t[i])) ==> r.None?
    ensures |t| > 0 && t[0] == '+' ==> r == ParseDigits(t[1..])
    ensures |t| > 0 && t[0] == '-' ==>
              (r.None? <==> ParseDigits(t[1..]).None?) && (r.Some? ==> r.value == -(ParseDigits(t[1..]).value as int))
    ensures |t| > 0 && !IsDigit(t[0]) && !IsSign(t[0]) ==> r.None?
    ensures r.None? <==> !StartsNumber(t)
  {
    if |t| > 0 && t[0] == '-' then
      match ParseDigits(t[1..])
      case Some(m) => Some(-(m as int))
      case None => None
    else if |t| > 0 && t[0] == '+' then ParseDigits(t[1..])
    else ParseDigits(t)
  }

  /** The value of the leading digit run of `body`, or `None` when there is none. */
  function ParseDigits(body: string): (r: Option<nat>)
    ensures AllDigits(body) && |body| > 0 ==> r == Some(DigitsValue(body))
    ensures (forall i :: 0 <= i < |body| ==> !IsDigit(body[i])) ==> r.None?
    ensures r.None? <==> body == [] || !IsDigit(body[0])
  {
    var n := LeadingDigits(body);
    if n == 0 then None
    else
      assert AllDigits(body) ==> body[..n] == body;
      Some(DigitsValue(body[..n]))
  }

  /** The decimal digits of `n`, with no leading zero. */
  function NatToString(n: nat): (r: string)
    ensures |r| >= 1 && AllDigits(r)
    ensures |r| > 1 ==> r[0] != '0'
  {
    if n < 10 then [DigitChar(n)] else NatToString(n / 10) + [DigitChar(n % 10)]
  }

  /** `n.toString()` for an integer `n`. */
  function IntToString(n: int): (r: string)
    ensures |r| >= 1
    ensures r[0] == '-' <==> n < 0
    ensures n >= 0 ==> AllDigits(r)
    ensures n < 0 ==> |r| >= 2 && AllDigits(r[1..])
    ensures n >= 0 ==> |r| == 1 || r[0] != '0'
    ensures n < 0 ==> |r| == 2 || r[1] != '0'
  {
    if n < 0 then "-" + NatToString(-n) else NatToString(n)
  }

  lemma {:induction false} DigitsValueOfNatToString(n: nat)
    ensures DigitsValue(NatToString(n)) == n
  {
    if n >= 10 {
      DigitsValueOfNatToString(n / 10);
      var s := NatToString(n);
      assert s[..|s| - 1] == NatToString(n / 10);
    }
  }

  /** The maximal digit run of `a + rest` is exactly `a` when `rest` does not continue it. */
  lemma {:induction false} LeadingDigitsOfAppend(a: string, rest: string)
    requires AllDigits(a)
    requires rest == [] || !IsDigit(rest[0])
    ensures LeadingDigits(a + rest) == |a|
  {
    if |a| > 0 {
      assert (a + rest)[0] == a[0];
      assert (a + rest)[1..] == a[1..] + rest;
      LeadingDigitsOfAppend(a[1..], rest);
    } else {
      assert a + rest == rest;
    }
  }

  /**
   * Parsing what `toString` produced gives the number back, also when the
   * text is followed by anything that does not start with a digit.
   */
  lemma {:induction false} ParseIntToString(n: int, rest: string)
    requires rest == [] || !IsDigit(rest[0])
    ensures ParseInt(IntToString(n) + rest) == Some(n)
  {
    var s := IntToString(n) + rest;
    ParseSignedOfIntToString(n, rest);
    TrimStartStops(s);
  }

  lemma {:induction false} ParseSignedOfIntToString(n: int, rest: string)
    requires rest == [] || !IsDigit(rest[0])
    ensures ParseSigned(IntToString(n) + rest) == Some(n)
  {
    if n < 0 {
      ParseSignedOfNegative(n, rest);
    } else {
      ParseSignedOfNonNegative(n, rest);
    }
  }

  lemma {:induction false} ParseSignedOfNegative(n: int, rest: string)
    requires n < 0
    requires rest == [] || !IsDigit(rest[0])
    ensures ParseSigned(IntToString(n) + rest) == Some(n)
  {
    var m: nat := -n;
    var t := IntToString(n) + rest;
    NegativeText(n, rest);
    ParseSignedOfMinusDigits(m, rest);
    assert t == "-" + (NatToString(m) + rest);
  }

  lemma ParseSignedOfMinusDigits(m: nat, rest: string)
    requires rest == [] || !IsDigit(rest[0])
    ensures ParseSigned("-" + (NatToString(m) + rest)) == Some(-(m as int))
  {
    ParseDigitsOfNatToString(m, rest);
    ParseSignedMinus(NatToString(m) + rest, m);
  }

  /** The text of a negative number is a minus sign before the digits of its magnitude. */
  lemma NegativeText(n: int, rest: string)
    requires n < 0
    ensures IntToString(n) + rest == "-" + (NatToString(-n) + rest)
  {
  }

  lemma {:induction false} ParseSignedOfNonNegative(n: int, rest: string)
    requires n >= 0
    requires rest == [] || !IsDigit(rest[0])
    ensures ParseSigned(IntToString(n) + rest) == Some(n)
  {
    var digits := NatToString(n);
    ParseDigitsOfNatToString(n, rest);
    assert (digits + rest)[0] == digits[0];
    ParseSignedDigit(digits + rest);
  }

  lemma ParseSignedMinus(body: string, m: nat)
    requires ParseDigits(body) == Some(m)
    ensures ParseSigned("-" + body) == Some(-(m as int))
  {
    assert ("-" + body)[0] == '-';
    assert ("-" + body)[1..] == body;
  }

  lemma ParseSignedDigit(t: string)
    requires |t| > 0 && IsDigit(t[0])
    ensures ParseSigned(t) == ParseDigits(t)
  {
  }

  /** Any digit run, leading zeros included, is read as its value whatever non-digit text follows. */
  lemma {:induction false} ParseDigitsOfAppend(a: string, rest: string)
    requires |a| > 0 && AllDigits(a)
    requires rest == [] || !IsDigit(rest[0])
    ensures ParseDigits(a + rest) == Some(DigitsValue(a))
  {
    LeadingDigitsOfAppend(a, rest);
    assert (a + rest)[..|a|] == a;
  }

  lemma {:induction false} ParseDigitsOfNatToString(m: nat, rest: string)
    requires rest == [] || !IsDigit(rest[0])
    ensures ParseDigits(NatToString(m) + rest) == Some(m)
  {
    DigitsValueOfNatToString(m);
    ParseDigitsOfAppend(NatToString(m), rest);
  }

  /** Text that is empty or a single `+` or `-`. */
  predicate OptionalSign(sign: string) {
    |sign| == 0 || (|sign| == 1 && IsSign(sign[0]))
  }

  /** The value a digit run denotes after the optional sign `sign`. */
  function SignedValue(sign: string, m: nat): int {
    if |sign| == 1 && sign[0] == '-' then -(m as int) else m
  }

  /**
   * `parseInt` of white space, an optional sign, a digit run (leading zeros
   * allowed) and text that does not continue the run gives the run's value,
   * negated after `-`.
   */
  lemma {:induction false} ParseIntOfDecimalPrefix(ws: string, sign: string, a: string, rest: string)
    requires forall i :: 0 <= i < |ws| ==> IsJsWhitespace(ws[i])
    requires OptionalSign(sign)
    requires |a| > 0 && AllDigits(a)
    requires rest == [] || !IsDigit(rest[0])
    ensures ParseInt(ws + sign + a + rest) == Some(SignedValue(sign, DigitsValue(a)))
  {
    var t := sign + (a + rest);
    AppendAssociative(sign, a, rest);
    AppendAssociative(ws, sign, a);
    AppendAssociative(ws, sign + a, rest);
    TrimStartSkips(ws, t);
    assert t[0] == (if |sign| == 0 then a[0] else sign[0]);
    TrimStartStops(t);
    ParseSignedOfPrefix(sign, a, rest, DigitsValue(a));
  }

  lemma ParseSignedOfPrefix(sign: string, a: string, rest: string, m: nat)
    requires OptionalSign(sign)
    requires |a| > 0 && AllDigits(a) && m == DigitsValue(a)
    requires rest == [] || !IsDigit(rest[0])
    ensures ParseSigned(sign + (a + rest)) == Some(SignedValue(sign, m))
  {
    ParseDigitsOfAppend(a, rest);
    if |sign| == 0 {
      ParseSignedUnsigned(sign, a + rest, m);
    } else if sign[0] == '+' {
      ParseSignedPlus(sign, a + rest, m);
    } else {
      ParseSignedNegated(sign, a + rest, m);
    }
  }

  lemma ParseSignedUnsigned(sign: string, body: string, m: nat)
    requires |sign| == 0 && ParseDigits(body) == Some(m)
    ensures ParseSigned(sign + body) == Some(SignedValue(sign, m))
  {
    assert sign + body == body;
    ParseSignedDigit(body);
  }

  lemma ParseSignedPlus(sign: string, body: string, m: nat)
    requires |sign| == 1 && sign[0] == '+' && ParseDigits(body) == Some(m)
    ensures ParseSigned(sign + body) == Some(SignedValue(sign, m))
  {
    var t := sign + body;
    assert t[0] == '+' && t[1..] == body;
  }

  lemma ParseSignedNegated(sign: string, body: string, m: nat)
    requires |sign| == 1 && sign[0] == '-' && ParseDigits(body) == Some(m)
    ensures ParseSigned(sign + body) == Some(SignedValue(sign, m))
  {
    var t := sign + body;
    assert t[0] == '-' && t[1..] == body;
  }

  lemma AppendAssociative(x: string, y: string, z: string)
    ensures x + y + z == x + (y + z)
  {
  }

  lemma {:induction false} TrimStartStops(s: string)
    requires |s| > 0 && !IsJsWhitespace(s[0])
    ensures TrimStart(s) == s
  {
  }

  /** Leading white space does not change what `parseInt` reads. */
  lemma ParseIntSkipsWhitespace(ws: string, s: string)
    requires forall i :: 0 <= i < |ws| ==> IsJsWhitespace(ws[i])
    ensures ParseInt(ws + s) == ParseInt(s)
  {
    TrimStartSkips(ws, s);
  }

  lemma {:induction false} TrimStartSkips(ws: string, s: string)
    requires forall i :: 0 <= i < |ws| ==> IsJsWhitespace(ws[i])
    ensures TrimStart(ws + s) == TrimStart(s)
  {
    if |ws| > 0 {
      assert (ws + s)[0] == ws[0];
      assert (ws + s)[1..] == ws[1..] + s;
      TrimStartSkips(ws[1..], s);
    } else {
      assert ws + s == s;
    }
  }
}

=== FILE: settings.dfy ===
/**
 * The settings store: seconds per phase and number of cycles, clamped on
 * every update, restorable to the defaults, loaded from and saved to a
 * key/value string store under two fixed keys.
 */
module BreathingSettings {
  import opened Wrappers
  import opened Breathing
  import opened Decimal

  const DurationKey: string := "boxed-breathing-duration"
  const CyclesKey: string := "boxed-breathing-cycles"

  const MinDuration: int := 1
  const MaxDuration: int := 60
  const MinCycles: int := 1
  const MaxCycles: int := 20

  /** Browser local storage: a key is either absent (`getItem` gives null) or maps to a string. */
  type Store = map<string, string>

  predicate InRange(c: Config) {
    MinDuration <= c.duration <= MaxDuration && MinCycles <= c.cycles <= MaxCycles
  }

  /** `Math.max(lo, Math.min(hi, x))`. */
  function Clamp(x: int, lo: int, hi: int): (r: int)
    requires lo <= hi
    ensures lo <= r <= hi
    ensures lo <= x <= hi ==> r == x
    ensures x < lo ==> r == lo
    ensures x > hi ==> r == hi
  {
    if hi < x then hi else if x < lo then lo else x
  }

  function UpdateDuration(c: Config, newDuration: int): (r: Config)
    ensures MinDuration <= r.duration <= MaxDuration
    ensures MinDuration <= newDuration <= MaxDuration ==> r.duration == newDuration
    ensures newDuration < MinDuration ==> r.duration == MinDuration
    ensures newDuration > MaxDuration ==> r.duration == MaxDuration
    ensures r.cycles == c.cycles
  {
    c.(duration := Clamp(newDuration, MinDuration, MaxDuration))
  }

  function UpdateCycles(c: Config, newCycles: int): (r: Config)
    ensures MinCycles <= r.cycles <= MaxCycles
    ensures MinCycles <= newCycles <= MaxCycles ==> r.cycles == newCycles
    ensures newCycles < MinCycles ==> r.cycles == MinCycles
    ensures newCycles > MaxCycles ==> r.cycles == MaxCycles
    ensures r.duration == c.duration
  {
    c.(cycles := Clamp(newCycles, MinCycles, MaxCycles))
  }

  /** Back to the defaults, whatever was set before. */
  function Reset(c: Config): (r: Config)
    ensures r.duration == 4 && r.cycles == 4
    ensures InRange(r)
  {
    DefaultConfig
  }

  /** Updating twice with the same value is the same as updating once. */
  lemma UpdateIdempotent(c: Config, x: int)
    ensures UpdateDuration(UpdateDuration(c, x), x) == UpdateDuration(c, x)
    ensures UpdateCycles(UpdateCycles(c, x), x) == UpdateCycles(c, x)
  {
  }

  /** An update keeps the settings in range, and the other field untouched. */
  lemma UpdatePreservesRange(c: Config, x: int)
    requires InRange(c)
    ensures InRange(UpdateDuration(c, x)) && InRange(UpdateCycles(c, x))
    ensures InRange(Reset(c))
  {
  }

  function Lookup(store: Store, key: string): Option<string> {
    if key in store then Some(store[key]) else None
  }

  /**
   * One key of the mount-time load: a missing or empty string, a string that
   * does not parse, or a parsed number outside [lo, hi] keeps `current`.
   */
  function LoadValue(saved: Option<string>, lo: int, hi: int, current: int): (r: int)
    ensures r == current || (saved.Some? && ParseInt(saved.value) == Some(r) && lo <= r <= hi)
    ensures saved.None? || saved == Some("") ==> r == current
    ensures saved.Some? && ParseInt(saved.value).None? ==> r == current
    ensures saved.Some? && ParseInt(saved.value).Some? && !(lo <= ParseInt(saved.value).value <= hi) ==> r == current
    ensures saved.Some? && ParseInt(saved.value).Some? && lo <= ParseInt(saved.value).value <= hi ==>
              r == ParseInt(saved.value).value
  {
    if saved.None? || saved.value == "" then current
    else
      match ParseInt(saved.value)
      case None => current
      case Some(parsed) => if parsed >= lo && parsed <= hi then parsed else current
  }

  /** The settings after the mount-time load, starting from the defaults. */
  function Load(store: Store): (r: Config)
    ensures InRange(r)
    ensures r.duration == LoadValue(Lookup(store, DurationKey), MinDuration, MaxDuration, DefaultConfig.duration)
    ensures r.cycles == LoadValue(Lookup(store, CyclesKey), MinCycles, MaxCycles, DefaultConfig.cycles)
  {
    var savedDuration := Lookup(store, DurationKey);
    var savedCycles := Lookup(store, CyclesKey);
    var defaults := DefaultConfig;
    var withDuration := defaults.(duration := LoadValue(savedDuration, MinDuration, MaxDuration, defaults.duration));
    withDuration.(cycles := LoadValue(savedCycles, MinCycles, MaxCycles, withDuration.cycles))
  }

  /** Both values written back as decimal strings; every other key is left alone. */
  function Save(c: Config, store: Store): (r: Store)
    ensures Lookup(r, DurationKey) == Some(IntToString(c.duration))
    ensures Lookup(r, CyclesKey) == Some(IntToString(c.cycles))
    ensures forall k :: k != DurationKey && k != CyclesKey ==> Lookup(r, k) == Lookup(store, k)
  {
    store[DurationKey := IntToString(c.duration)][CyclesKey := IntToString(c.cycles)]
  }

  /** A saved in-range setting is adopted again on the next load. */
  lemma LoadValueOfSaved(x: int, lo: int, hi: int, current: int)
    requires lo <= x <= hi
    ensures LoadValue(Some(IntToString(x)), lo, hi, current) == x
  {
    var text := IntToString(x);
    ParseIntToString(x, "");
    assert text + "" == text;
    assert ParseInt(text) == Some(x) && text != "";
  }

  /** Saving in-range settings and loading them back gives the same settings. */
  lemma SaveLoadRoundTrip(c: Config, store: Store)
    requires InRange(c)
    ensures Load(Save(c, store)) == c
  {
    LoadValueOfSaved(c.duration, MinDuration, MaxDuration, DefaultConfig.duration);
    LoadValueOfSaved(c.cycles, MinCycles, MaxCycles, DefaultConfig.cycles);
  }

  /** The two keys load independently: each field depends on its own key only. */
  lemma LoadIndependent(s1: Store, s2: Store)
    ensures Lookup(s1, DurationKey) == Lookup(s2, DurationKey) ==> Load(s1).duration == Load(s2).duration
    ensures Lookup(s1, CyclesKey) == Lookup(s2, CyclesKey) ==> Load(s1).cycles == Load(s2).cycles
  {
  }

  /** With nothing stored the load keeps the defaults. */
  lemma LoadEmpty()
    ensures Load(map[]) == DefaultConfig
  {
  }
}

=== FILE: timer.dfy ===
/**
 * The breathing timer hook as a pure state machine.  Each handler is one
 * atomic transition from a snapshot to the next snapshot plus the
 * notifications it fires.  Time is counted in integer tenths of a second and
 * one tick takes one tenth off; the repeating interval is the `ticking` flag.
 * `duration` and `cycles` are fixed for a session.
 */
module BreathingTimer {
  import opened Wrappers
  import opened Breathing

  datatype State = Idle | Running | Paused | Completed

  /** The `onPhaseChange` and `onComplete` callbacks. */
  datatype Event = PhaseChange(phase: Phase) | Complete

  /** The hook's state; `remaining` is in tenths of a second. */
  datatype Snapshot = Snapshot(state: State, phase: Phase, remaining: int, cycle: int, ticking: bool)

  /** The snapshot after a transition and the notifications it fired. */
  datatype Step = Step(next: Snapshot, events: seq<Event>)

  /** What the hook hands to its caller. */
  datatype TimerView = TimerView(
    state: State, currentPhase: Phase, phaseTimeRemaining: real,
    currentCycle: int, totalCycles: int, progress: Option<real>)

  /** The length of one phase in ticks. */
  function PhaseTenths(cfg: Config): int {
    10 * cfg.duration
  }

  /** A session the settings store can produce: at least one second and one cycle. */
  predicate Playable(cfg: Config) {
    cfg.duration >= 1 && cfg.cycles >= 1
  }

  /** The snapshot invariant of a session. */
  predicate Valid(cfg: Config, s: Snapshot) {
    && Playable(cfg)
    && 0 < s.remaining <= PhaseTenths(cfg)
    && 1 <= s.cycle <= cfg.cycles
    && (s.ticking <==> s.state == Running)
    && (s.state == Completed ==> s.phase == Inhale && s.remaining == PhaseTenths(cfg) && s.cycle == cfg.cycles)
  }

  /** The hook's initial state at mount. */
  function Initial(cfg: Config): (s: Snapshot)
    ensures Playable(cfg) ==> Valid(cfg, s)
    ensures s.state == Idle && !s.ticking
  {
    Snapshot(Idle, Inhale, PhaseTenths(cfg), 1, false)
  }

  function Start(cfg: Config, s: Snapshot): (r: Step)
    ensures s.state == Running ==> r == Step(s, [])
    ensures s.state != Running ==>
              && r.next.state == Running && r.next.ticking
              && r.next.phase == Inhale && r.next.remaining == PhaseTenths(cfg) && r.next.cycle == 1
              && r.events == [PhaseChange(Inhale)]
    ensures Valid(cfg, s) ==> Valid(cfg, r.next)
  {
    if s.state == Running then Step(s, [])
    else Step(Snapshot(Running, Inhale, PhaseTenths(cfg), 1, true), [PhaseChange(Inhale)])
  }

  function Pause(cfg: Config, s: Snapshot): (r: Step)
    ensures r.events == []
    ensures s.state != Running ==> r.next == s
    ensures s.state == Running ==>
              && r.next.state == Paused && !r.next.ticking
              && r.next.phase == s.phase && r.next.remaining == s.remaining && r.next.cycle == s.cycle
    ensures Valid(cfg, s) ==> Valid(cfg, r.next)
  {
    if s.state != Running then Step(s, [])
    else Step(s.(state := Paused, ticking := false), [])
  }

  function Resume(cfg: Config, s: Snapshot): (r: Step)
    ensures r.events == []
    ensures s.state != Paused ==> r.next == s
    ensures s.state == Paused ==>
              && r.next.state == Running && r.next.ticking
              && r.next.phase == s.phase && r.next.remaining == s.remaining && r.next.cycle == s.cycle
    ensures Valid(cfg, s) ==> Valid(cfg, r.next)
  {
    if s.state != Paused then Step(s, [])
    else Step(s.(state := Running, ticking := true), [])
  }

  /** Cancels ticking and goes back to the mount-time state, from any state. */
  function Stop(cfg: Config, s: Snapshot): (r: Step)
    ensures r.next == Initial(cfg) && r.events == []
    ensures Playable(cfg) ==> Valid(cfg, r.next)
  {
    Step(Snapshot(Idle, Inhale, PhaseTenths(cfg), 1, false), [])
  }

  /** The same handler as `Stop`, under its second name. */
  function Reset(cfg: Config, s: Snapshot): (r: Step)
    ensures r.next == Initial(cfg) && r.events == []
    ensures Playable(cfg) ==> Valid(cfg, r.next)
  {
    Step(Snapshot(Idle, Inhale, PhaseTenths(cfg), 1, false), [])
  }

  /** True when leaving phase `p` completes a cycle. */
  predicate WrapsCycle(p: Phase) {
    GetNextPhase(p) == Inhale && p == HoldEmpty
  }

  /**
   * The end of a phase: step to the next phase with a full phase of time.
   * Leaving hold-empty counts a cycle; past the last cycle the timer stops
   * ticking and completes, keeping the cycle count at its maximum.
   */
  function MoveToNextPhase(cfg: Config, s: Snapshot): (r: Step)
    ensures r.next.phase == GetNextPhase(s.phase)
    ensures r.next.remaining == PhaseTenths(cfg)
    ensures PhaseChange(GetNextPhase(s.phase)) in r.events
    ensures Complete !in r.events ==> r.events == [PhaseChange(GetNextPhase(s.phase))]
    ensures Complete in r.events ==> |r.events| == 2 && PhaseChange(Inhale) in r.events
    ensures Complete in r.events <==> WrapsCycle(s.phase) && s.cycle + 1 > cfg.cycles
    ensures Complete in r.events ==> r.next.state == Completed && !r.next.ticking && r.next.cycle == s.cycle
    ensures Complete !in r.events ==> r.next.state == s.state && r.next.ticking == s.ticking
    ensures r.next.cycle != s.cycle ==> WrapsCycle(s.phase) && r.next.cycle == s.cycle + 1
    ensures WrapsCycle(s.phase) && s.cycle + 1 <= cfg.cycles ==> r.next.cycle == s.cycle + 1
  {
    var next := GetNextPhase(s.phase);
    if next == Inhale && s.phase == HoldEmpty then
      var nextCycle := s.cycle + 1;
      if nextCycle > cfg.cycles then
        Step(Snapshot(Completed, next, PhaseTenths(cfg), s.cycle, false), [PhaseChange(next), Complete])
      else
        Step(s.(phase := next, remaining := PhaseTenths(cfg), cycle := nextCycle), [PhaseChange(next)])
    else
      Step(s.(phase := next, remaining := PhaseTenths(cfg)), [PhaseChange(next)])
  }

  /**
   * One already-gated interval callback.  It does nothing unless ticking;
   * otherwise it takes a tenth off, and when nothing would be left it moves
   * to the next phase instead.
   */
  function Tick(cfg: Config, s: Snapshot): (r: Step)
    ensures !s.ticking ==> r == Step(s, [])
    ensures s.ticking && s.remaining > 1 ==>
              && r.events == []
              && r.next == s.(remaining := s.remaining - 1)
    ensures s.ticking && s.remaining <= 1 ==>
              && r.next.phase == GetNextPhase(s.phase)
              && r.next.remaining == PhaseTenths(cfg)
              && PhaseChange(r.next.phase) in r.events
              && (Complete !in r.events ==> r.events == [PhaseChange(r.next.phase)])
              && (Complete in r.events ==> |r.events| == 2 && PhaseChange(Inhale) in r.events)
    ensures r.next.phase == s.phase || r.next.phase == GetNextPhase(s.phase)
    ensures r.next.cycle != s.cycle ==> s.phase == HoldEmpty && r.next.phase == Inhale && r.next.cycle == s.cycle + 1
    ensures Complete in r.events <==> s.ticking && s.remaining <= 1 && WrapsCycle(s.phase) && s.cycle >= cfg.cycles
    ensures Valid(cfg, s) ==> Valid(cfg, r.next)
  {
    if !s.ticking then Step(s, [])
    else
      var next := s.remaining - 1;
      if next <= 0 then MoveToNextPhase(cfg, s)
      else Step(s.(remaining := next), [])
  }

  /** `n` ticks in a row, with the notifications of all of them in order. */
  function Ticks(cfg: Config, s: Snapshot, n: nat): (r: Step)
    ensures !s.ticking ==> r == Step(s, [])
    ensures Valid(cfg, s) ==> Valid(cfg, r.next)
    decreases n
  {
    if n == 0 then Step(s, [])
    else
      var t := Tick(cfg, s);
      var rest := Ticks(cfg, t.next, n - 1);
      Step(rest.next, t.events + rest.events)
  }

  /** How many `Complete` notifications a list of events holds. */
  function Completions(events: seq<Event>): nat {
    if |events| == 0 then 0
    else (if events[0] == Complete then 1 else 0) + Completions(events[1..])
  }

  lemma {:induction false} CompletionsAppend(a: seq<Event>, b: seq<Event>)
    ensures Completions(a + b) == Completions(a) + Completions(b)
  {
    if |a| == 0 {
      assert a + b == b;
    } else {
      assert (a + b)[1..] == a[1..] + b;
      CompletionsAppend(a[1..], b);
    }
  }

  /**
   * The hook's derived progress, computed inline from the seconds shown to
   * the user; it agrees with `calculateProgress` of the phase table.
   */
  function Progress(cfg: Config, s: Snapshot): (r: Option<real>)
    ensures r == CalculateProgress(s.phase, s.remaining as real / 10.0, cfg.duration as real)
    ensures Valid(cfg, s) ==> r.Some? && 25.0 * GetPhaseIndex(s.phase) as real <= r.value < 25.0 * (GetPhaseIndex(s.phase) + 1) as real
  {
    var phaseIndex := FindIndex(Phases, s.phase);
    if cfg.duration == 0 then None
    else
      var phaseProgress := ((cfg.duration as real - s.remaining as real / 10.0) / cfg.duration as real) * 100.0;
      Some(phaseIndex as real * 25.0 + phaseProgress / 4.0)
  }

  /** The object the hook returns, without its handler functions. */
  function View(cfg: Config, s: Snapshot): (v: TimerView)
    ensures v.state == s.state && v.currentPhase == s.phase && v.currentCycle == s.cycle
    ensures v.phaseTimeRemaining == s.remaining as real / 10.0
    ensures v.totalCycles == cfg.cycles
    ensures Valid(cfg, s) ==> 0.0 < v.phaseTimeRemaining <= cfg.duration as real
    ensures v.progress == Progress(cfg, s)
  {
    TimerView(s.state, s.phase, s.remaining as real / 10.0, s.cycle, cfg.cycles, Progress(cfg, s))
  }

  /** Pausing and then resuming a running timer changes nothing. */
  lemma PauseResumeIdentity(cfg: Config, s: Snapshot)
    requires Valid(cfg, s) && s.state == Running
    ensures Resume(cfg, Pause(cfg, s).next).next == s
  {
  }

  /** `stop` and `reset` are the same transition from every state. */
  lemma StopIsReset(cfg: Config, s: Snapshot)
    ensures Stop(cfg, s) == Reset(cfg, s)
  {
  }

  /** The whole phases still to come after the current one, up to completion. */
  function PhasesLeft(cfg: Config, s: Snapshot): int {
    (3 - GetPhaseIndex(s.phase)) + 4 * (cfg.cycles - s.cycle)
  }

  /** The ticks of `n` phases of `d` ticks each, counted phase by phase. */
  function PhaseTicks(d: int, n: int): int
    decreases n
  {
    if n <= 0 then 0 else PhaseTicks(d, n - 1) + d
  }

  lemma {:induction false} PhaseTicksIsProduct(d: int, n: nat)
    ensures PhaseTicks(d, n) == d * n
  {
    if n > 0 {
      PhaseTicksIsProduct(d, n - 1);
    }
  }

  /** The ticks left until completion: the rest of this phase and the phases still to come. */
  function TicksLeft(cfg: Config, s: Snapshot): int {
    s.remaining + PhaseTicks(PhaseTenths(cfg), PhasesLeft(cfg, s))
  }

  /** One tick of a running session brings completion one tick closer. */
  lemma TickCountsDown(cfg: Config, s: Snapshot)
    requires Valid(cfg, s) && s.state == Running
    ensures TicksLeft(cfg, s) >= 1
    ensures TicksLeft(cfg, s) == 1 ==>
              Tick(cfg, s).next.state == Completed && Completions(Tick(cfg, s).events) == 1
    ensures TicksLeft(cfg, s) > 1 ==>
              && Tick(cfg, s).next.state == Running
              && TicksLeft(cfg, Tick(cfg, s).next) == TicksLeft(cfg, s) - 1
              && Completions(Tick(cfg, s).events) == 0
    ensures Valid(cfg, Tick(cfg, s).next)
  {
    PhaseTicksAtLeast(PhaseTenths(cfg), PhasesLeft(cfg, s));
    if s.remaining > 1 {
      TickWithinPhase(cfg, s);
    } else if s.phase != HoldEmpty {
      TickToNextPhase(cfg, s);
    } else if s.cycle < cfg.cycles {
      TickToNextCycle(cfg, s);
    } else {
      TickCompletes(cfg, s);
    }
  }

  lemma PhaseTicksUnfold(d: int, n: int)
    requires n >= 1
    ensures PhaseTicks(d, n) == PhaseTicks(d, n - 1) + d
  {
  }

  lemma {:induction false} PhaseTicksAtLeast(d: int, n: int)
    requires d >= 1
    ensures PhaseTicks(d, n) >= 0
    ensures n >= 1 ==> PhaseTicks(d, n) >= d
    decreases n
  {
    if n > 0 {
      PhaseTicksAtLeast(d, n - 1);
    }
  }

  lemma TickWithinPhase(cfg: Config, s: Snapshot)
    requires Valid(cfg, s) && s.state == Running && s.remaining > 1
    ensures TicksLeft(cfg, s) > 1
    ensures Tick(cfg, s).next.state == Running
    ensures TicksLeft(cfg, Tick(cfg, s).next) == TicksLeft(cfg, s) - 1
    ensures Completions(Tick(cfg, s).events) == 0
  {
    PhaseTicksAtLeast(PhaseTenths(cfg), PhasesLeft(cfg, s));
    assert PhasesLeft(cfg, Tick(cfg, s).next) == PhasesLeft(cfg, s);
  }

  lemma TickToNextPhase(cfg: Config, s: Snapshot)
    requires Valid(cfg, s) && s.state == Running && s.remaining == 1 && s.phase != HoldEmpty
    ensures TicksLeft(cfg, s) > 1
    ensures Tick(cfg, s).next.state == Running
    ensures TicksLeft(cfg, Tick(cfg, s).next) == TicksLeft(cfg, s) - 1
    ensures Completions(Tick(cfg, s).events) == 0
  {
    var d := PhaseTenths(cfg);
    var next := GetNextPhase(s.phase);
    var t := Tick(cfg, s);
    assert t == Step(s.(phase := next, remaining := d), [PhaseChange(next)]);
    NextPhaseIndexWithinCycle(s.phase);
    var p := PhasesLeft(cfg, s);
    assert PhasesLeft(cfg, t.next) == p - 1;
    assert p >= 1;
    PhaseTicksAtLeast(d, p - 1);
    PhaseTicksUnfold(d, p);
  }

  lemma TickToNextCycle(cfg: Config, s: Snapshot)
    requires Valid(cfg, s) && s.state == Running && s.remaining == 1 && s.phase == HoldEmpty
    requires s.cycle < cfg.cycles
    ensures TicksLeft(cfg, s) > 1
    ensures Tick(cfg, s).next.state == Running
    ensures TicksLeft(cfg, Tick(cfg, s).next) == TicksLeft(cfg, s) - 1
    ensures Completions(Tick(cfg, s).events) == 0
  {
    var t := Tick(cfg, s);
    NextPhaseOrder(s.phase);
    assert t.events == [PhaseChange(Inhale)];
    assert t.next.cycle == s.cycle + 1 && t.next.phase == Inhale && t.next.remaining == PhaseTenths(cfg);
    assert PhasesLeft(cfg, t.next) == PhasesLeft(cfg, s) - 1;
    PhaseTicksAtLeast(PhaseTenths(cfg), PhasesLeft(cfg, s) - 1);
    PhaseTicksUnfold(PhaseTenths(cfg), PhasesLeft(cfg, s));
  }

  lemma TickCompletes(cfg: Config, s: Snapshot)
    requires Valid(cfg, s) && s.state == Running && s.remaining == 1 && s.phase == HoldEmpty
    requires s.cycle == cfg.cycles
    ensures TicksLeft(cfg, s) == 1
    ensures Tick(cfg, s).next.state == Completed
    ensures Completions(Tick(cfg, s).events) == 1
  {
    NextPhaseOrder(s.phase);
    assert PhasesLeft(cfg, s) == 0;
    var events := Tick(cfg, s).events;
    assert events == [PhaseChange(Inhale), Complete];
    assert events[1..] == [Complete];
    assert Completions(events[1..]) == 1 + Completions([]);
  }

  /**
   * A running session keeps running for fewer ticks than it has left, and
   * completes, with exactly one completion notification, on the last one.
   */
  lemma RunsToCompletion(cfg: Config, s: Snapshot, k: nat)
    requires Valid(cfg, s) && s.state == Running
    requires k <= TicksLeft(cfg, s)
    ensures k < TicksLeft(cfg, s) ==> Ticks(cfg, s, k).next.state == Running && Completions(Ticks(cfg, s, k).events) == 0
    ensures k == TicksLeft(cfg, s) ==> Ticks(cfg, s, k).next.state == Completed && Completions(Ticks(cfg, s, k).events) == 1
  {
    if k < TicksLeft(cfg, s) {
      RunsBeforeCompletion(cfg, s, k);
    } else {
      CompletesOnLastTick(cfg, s, k);
    }
  }

  /** `k + 1` ticks are one tick followed by `k` more. */
  lemma TicksUnfold(cfg: Config, s: Snapshot, k: nat)
    ensures Ticks(cfg, s, k + 1).next == Ticks(cfg, Tick(cfg, s).next, k).next
    ensures Completions(Ticks(cfg, s, k + 1).events)
         == Completions(Tick(cfg, s).events) + Completions(Ticks(cfg, Tick(cfg, s).next, k).events)
  {
    CompletionsAppend(Tick(cfg, s).events, Ticks(cfg, Tick(cfg, s).next, k).events);
  }

  lemma {:induction false} RunsBeforeCompletion(cfg: Config, s: Snapshot, k: nat)
    requires Valid(cfg, s) && s.state == Running
    requires k < TicksLeft(cfg, s)
    ensures Ticks(cfg, s, k).next.state == Running && Completions(Ticks(cfg, s, k).events) == 0
    decreases k
  {
    if k > 0 {
      TickCountsDown(cfg, s);
      TicksUnfold(cfg, s, k - 1);
      RunsBeforeCompletion(cfg, Tick(cfg, s).next, k - 1);
    }
  }

  lemma {:induction false} CompletesOnLastTick(cfg: Config, s: Snapshot, n: nat)
    requires Valid(cfg, s) && s.state == Running
    requires n == TicksLeft(cfg, s)
    ensures Ticks(cfg, s, n).next.state == Completed
    ensures Completions(Ticks(cfg, s, n).events) == 1
    decreases n
  {
    TickCountsDown(cfg, s);
    var t := Tick(cfg, s);
    TicksUnfold(cfg, s, n - 1);
    if n == 1 {
      assert Ticks(cfg, t.next, 0) == Step(t.next, []);
    } else {
      CompletesOnLastTick(cfg, t.next, n - 1);
    }
  }

  /** The total session time the completion screen shows, in seconds. */
  function TotalTime(cfg: Config): int {
    cfg.cycles * cfg.duration * 4
  }

  /** A fresh start has 40 * duration * cycles ticks ahead of it. */
  lemma StartTicksLeft(cfg: Config, s0: Snapshot)
    requires Playable(cfg) && s0.state != Running
    ensures TicksLeft(cfg, Start(cfg, s0).next) == 40 * cfg.duration * cfg.cycles == 10 * TotalTime(cfg)
  {
    var s := Start(cfg, s0).next;
    assert PhasesLeft(cfg, s) == 4 * cfg.cycles - 1;
    PhaseTicksIsProduct(PhaseTenths(cfg), 4 * cfg.cycles);
    assert TicksLeft(cfg, s) == PhaseTenths(cfg) * (4 * cfg.cycles);
    assert 10 * TotalTime(cfg) == 40 * cfg.duration * cfg.cycles;
  }

  /**
   * From `start`, the session runs for exactly 40 * duration * cycles ticks,
   * ten per second of the completion screen's total time: it is running
   * before that, completed after, completion is announced once, and later
   * ticks change nothing.
   */
  lemma SessionLength(cfg: Config, s0: Snapshot, k: nat, m: nat)
    requires Playable(cfg) && s0.state != Running
    ensures var s := Start(cfg, s0).next;
      && TicksLeft(cfg, s) == 40 * cfg.duration * cfg.cycles == 10 * TotalTime(cfg)
      && (k < 10 * TotalTime(cfg) ==> Ticks(cfg, s, k).next.state == Running && Completions(Ticks(cfg, s, k).events) == 0)
      && Ticks(cfg, s, 10 * TotalTime(cfg)).next.state == Completed
      && Completions(Ticks(cfg, s, 10 * TotalTime(cfg)).events) == 1
      && Ticks(cfg, Ticks(cfg, s, 10 * TotalTime(cfg)).next, m) == Step(Ticks(cfg, s, 10 * TotalTime(cfg)).next, [])
  {
    var s := Start(cfg, s0).next;
    StartTicksLeft(cfg, s0);
    var n := 10 * TotalTime(cfg);
    assert n == TicksLeft(cfg, s);
    if k < n {
      RunsToCompletion(cfg, s, k);
    }
    RunsToCompletion(cfg, s, n);
    var done := Ticks(cfg, s, n).next;
    assert Valid(cfg, done);
  }

  /** Completion is terminal: only `start`, `stop` or `reset` leave it. */
  lemma CompletedIsTerminal(cfg: Config, s: Snapshot, n: nat)
    requires Valid(cfg, s) && s.state == Completed
    ensures Tick(cfg, s) == Step(s, []) && Ticks(cfg, s, n) == Step(s, [])
    ensures Pause(cfg, s) == Step(s, []) && Resume(cfg, s) == Step(s, [])
    ensures Start(cfg, s).next.state == Running
  {
  }

  /** Every transition keeps the invariant, from the initial state on. */
  lemma InvariantHolds(cfg: Config, s: Snapshot)
    requires Valid(cfg, s)
    ensures Valid(cfg, Initial(cfg))
    ensures Valid(cfg, Start(cfg, s).next) && Valid(cfg, Pause(cfg, s).next) && Valid(cfg, Resume(cfg, s).next)
    ensures Valid(cfg, Stop(cfg, s).next) && Valid(cfg, Reset(cfg, s).next) && Valid(cfg, Tick(cfg, s).next)
  {
  }
}

=== FILE: wrappers.dfy ===
/** The optional-value datatype shared by the other modules. */
module Wrappers {

  /** `None` stands for a JavaScript `null`, `undefined` or `NaN` result. */
  datatype Option<+T> = None | Some(value: T) {

    /** The wrapped value, or `default` when there is none. */
    function GetOr(default: T): T {
      match this
      case Some(v) => v
      case None => default
    }
  }
}
